=== FILE: README.md ===
# hashonym in Dafny

A model of `Hashonym`, the engine that gives files content-addressed names. You register files with the engine. When asked, it hashes every file that has no digest yet. It then finds the shortest digest prefix length at which two files with different content never share a prefix, and raises that length to the configured `minHashLen`. From that length it builds a map from each file to `outputDir + shortHash`, with the file's extension appended when `ext` is set. Unless this is a dry run, it then copies each file to its destination, skipping any destination that already exists. A `dirty` flag records whether the cached map is stale.

All operations are pure functions over immutable values, so lemmas can relate several calls:

- `types.dfy` (`Types`): paths, digests, the separator `'/'` and the two error kinds.
- `wrappers.dfy` (`Wrappers`): `Option` and `Result`.
- `jsobject.dfy` (`JsObject`): a JavaScript object used as a dictionary. It has keys in insertion order plus a map. Assigning to a key that is already present keeps the key's position.
- `resolver.dfy` (`Resolver`): `_isValidHashLen`, `_findMinHashLen` and `_calcMinHashLen`. Each is proved against the pairwise definition of a collision-free length.
- `hashpass.dfy` (`HashPass`): the digest cache and `_generateHashMap`. A cached `None` is the `false` that `add` stores.
- `dirmap.dfy` (`DirMap`): how a destination is built, and the map builder.
- `materializer.dfy` (`Materializer`): `_write` over an abstract store. A path exists when it is a key of the store. A copy sets the destination's bytes to the source's bytes.
- `hashonym.dfy` (`Hashonym`): the engine state, the constructor, `add`, `_generateDirMap` and `hashonymize`.

Some collaborators are parameters of the model rather than part of it:

- The hashing capability is a function `hash: Path -> Option<Digest>`, where `None` is a hashing error.
- `path.extname` is a function `extName: Path -> string`.
- Creating the output directory is reduced to a flag, `mkdirOk`.
- The file system is a `Store`, a map from path to bytes.
- `dryRun` is a public property that the source reads when `hashonymize` runs. Here it is an argument of `Hashonymize`.
- Callbacks, `process.nextTick` and the one-file-at-a-time chaining become ordinary sequential evaluation.

Some behaviours of the code are easy to miss:

- **Separator.** The constructor tests `outputDir.charAt(-1)`, which is always the empty string. So the separator is always appended, and `"out/"` becomes `"out//"` (`Hashonym.New`).
- **Dirty flag and failed writes.** `_generateDirMap` clears `dirty` before `_write` runs. If the output directory then cannot be created, the engine is already clean. The next `hashonymize` call reports success with the cached map and writes nothing (`Hashonym.FailedWriteIsNotRetried`).
- **Re-adding a path.** `add` resets the digest of a path that is already registered, so that path is hashed again.
- **The `minHashLen` floor.** The floor is not re-checked for collisions, and it need not be: validity is upward-closed, so raising a valid length to the floor always gives a valid length (`Resolver.ValidHashLenUpward`). The clamped result is the least valid length at or above the floor.

## Model

| member | source | states |
|---|---|---|
| Resolver.Slice | index.js:214 | `fullHash.slice(0, n)` is the prefix of the digest of length `n`, or the whole digest when it is shorter |
| Resolver.Scan | index.js:211-229 | the grouping loop rejects a length only with a witness: two files with different digests whose short hashes agree |
| Resolver.ScanDecidesCollisionFree | index.js:211-229 | comparing each file only with the first file of its short-hash group rejects a length exactly when two files with different digests share the short hash |
| Resolver.IsValidHashLen | index.js:194-233 | a length is valid iff it is positive and no two different digests agree on their first `n` characters; lengths `<= 0` are always invalid |
| Resolver.ValidHashLenUpward | index.js:174-177 | validity is upward-closed: every length above a valid one is valid, so clamping up to `minHashLen` keeps the map collision-free |
| Resolver.BoundIsValid | index.js:186-188 | the length of the longest digest (at least 1) is always valid, so the search terminates there |
| Resolver.FindFrom | index.js:184-188 | the loop from candidate `n` stops at the least valid length `>= n`, never past the longest digest |
| Resolver.FindMinHashLen | index.js:183-192 | the result is the least valid length `>= 1` and at most max(1, longest digest) |
| Resolver.CalcMinHashLen | index.js:171-181 | the result is `>= 1`, `>= minHashLen`, collision-free, and the least valid length that is at least `minHashLen` |
| Resolver.SharedPrefixForcesLongerHash | index.js:171-192 | two different digests that agree on `n` characters force a resolved length above `n` |
| Resolver.DistinctFirstCharacters | index.js:171-192 | whenever any two different digests differ in their first character, the resolved length is the floor, or 1 when the floor is below 1 |
| Resolver.IdenticalContent | index.js:171-229 | when every file has the same digest no length collides, so the resolved length is the floor, or 1 when the floor is below 1 |
| Resolver.FloorWins | index.js:171-177 | once some length at or below the floor is valid, the resolved length is exactly the floor |
| HashPass.Run | index.js:64-83 | only files without a digest are hashed; a file not hashed, or the one that failed, keeps its entry; successful hashes are stored even if a later file fails; the pass fails only on a file without a digest that cannot be hashed, and on success every such file was hashable and every file has a digest |
| HashPass.RunHashesInOrder | index.js:64-83 | the files hashed are a prefix of the files without a digest, in key order: all of them on success, ending with the failing file otherwise |
| HashPass.StopsAtFirstError | index.js:71-79 | every file hashed before the last one was hashed successfully, so the pass stops at the first error |
| HashPass.GenerateHashMap | index.js:61-87 | the pass keeps the key order and fails iff some file without a digest cannot be hashed; it hashes those files in key order up to the first error, every file hashed before the error stores its own digest, every other entry (cached digests included) is kept, and on success every file has a digest |
| DirMap.Destination | index.js:101-107 | a destination is the output directory, then the short hash, then the file's extension exactly when `ext` is set |
| DirMap.BuildDirMap | index.js:97-112 | the map has exactly the registered files as keys, in key order, each mapped to its destination |
| DirMap.NoFalseCollisions | index.js:97-112 | at a valid length, equal destinations imply equal digests (with `ext`, for digests of one length), and equal digests (and extensions) imply equal destinations; with `ext`, equal destinations also imply equal extensions |
| Materializer.Run | index.js:133-163 | each visited file adds at most one copy, so `unique` never exceeds the number of files; no existing path disappears, and every copy creates exactly one new path |
| Materializer.RunStore | index.js:141-161 | the copy loop never changes an existing path and adds exactly the destinations still to visit |
| Materializer.RunUnique | index.js:133-161 | `unique` grows by the number of distinct destinations that were missing when the loop started |
| Materializer.RunContents | index.js:152-161 | every file the loop creates holds the bytes of a source mapped to it |
| Materializer.Write | index.js:122-169 | fails iff the directory cannot be created; otherwise every destination exists afterwards, nothing existing changes, each new file holds the bytes of a file mapped to it, and `unique` is the number of distinct destinations that were absent |
| Materializer.WriteTwiceCopiesNothing | index.js:144-150 | a second write of the same map copies nothing and leaves the store unchanged |
| Materializer.SharedDestinationCopiedOnce | index.js:144-161 | two files with one missing destination cause one copy and one skip |
| JsObject.Put | index.js:32 | assigning to a key stores the value and leaves every other entry alone; a new key goes last, a key already present keeps its position |
| Hashonym.New | index.js:13-25 | a new engine is dirty with empty maps and keeps the given `minHashLen` and `ext`; its output directory is the given one with the separator appended unconditionally |
| Hashonym.PutAll | index.js:31-33 | every given path is registered with the given value and other entries are unchanged; the keys are the old keys followed by the given paths not yet present, in first-occurrence order |
| Hashonym.Add | index.js:27-34 | `add` sets `dirty` and registers every given path, where `Concat` turns a single path into a one-element list as `[].concat(files)` does; each given path has its digest reset, the new paths are appended to the key order in first-occurrence order, nothing else changes, and the engine invariant is kept |
| Hashonym.GenerateDirMap | index.js:89-120 | the files without a digest are hashed in key order up to the first error, each one hashed before the error keeps its new digest and every other entry is kept; a failed pass leaves the engine dirty with its old map; a successful one caches the map at the resolved length and clears `dirty` |
| Hashonym.AfterHashPass | index.js:92-119 | after the pass, the engine holds the cache the pass left; if the pass succeeded it caches the map at the resolved length and clears `dirty`, otherwise it keeps its old map and stays dirty; nothing else changes |
| Hashonym.Hashonymize | index.js:36-59 | a clean engine returns its cached map without hashing or writing. A dirty one keeps its output directory, `minHashLen` and `ext` and computes the missing digests in key order up to the first error, keeping every digest computed before it. It succeeds iff every missing digest can be computed and the run is dry or the directory can be created. A hash error leaves it dirty, and a dry run touches no file. A write keeps existing files, creates every destination and nothing else, and reports the number of destinations that were missing; each file it creates holds the bytes of a file mapped to it |
| Hashonym.Regenerate | index.js:39-53 | on a dirty engine the whole report holds. The engine keeps its configuration, and the missing digests are computed in key order up to the first error, keeping earlier ones. A hash error leaves the engine dirty with its old map and touches no file. The call succeeds iff there is no hash error and the run is dry or the directory can be created. A write keeps existing files, creates exactly the destinations, each new one holding the bytes of a file mapped to it, and counts the missing ones |
| Hashonym.Finish | index.js:40-53 | after the map is regenerated, a hashing error is passed to the callback and no file is touched, and a dry run answers with the map and writes nothing. Otherwise the answer is the map exactly when the directory can be created. Then every existing file is kept, exactly the destinations are added, the copy count is the number of destinations that were missing, and each new file holds the bytes of a file mapped to it |
| Hashonym.SecondCallIsCached | index.js:39-58 | a dirty engine whose missing digests can be computed, and that runs dry or can create its directory, succeeds; the next call returns the same map and neither hashes nor writes |
| Hashonym.FailedWriteIsNotRetried | index.js:40-53 | when the directory cannot be created the engine is left clean, so the next call reports the cached map without writing |
| Hashonym.CleanMapUsesLeastLength | index.js:97-115 | a clean engine's map was built at the least valid length that is at least `minHashLen` |
| Hashonym.CleanMapHasNoFalseCollisions | index.js:97-115 | in a clean engine's map, two files share a destination exactly when they share content and, when extensions are kept, extension |
| Hashonym.AddedPathsAreTheOnlyOnesHashed | index.js:71-82 | after `add` on a clean engine, the next call hashes only the paths just added |
| Hashonym.UnhashableFileIsReported | index.js:40-42 | a registered file that cannot be hashed is reported as a hashing error even on a non-dry run with any file system; the engine stays dirty with its old map and no file is touched |

## Left out

- `hashfile` is an opaque digest library. It is the oracle parameter `hash`.
- `mkdirp` is reduced to success or failure. Directory creation itself is not modelled.
- Stream copying (`createReadStream`/`pipe`/`createWriteStream`) is reduced to one store update. A copy error has no handler in the source and never reaches the callback, so it has no error path here. For the same reason, every registered file must exist in the store when files are actually written. `Write` requires it only when the directory can be created. `Hashonymize` requires it only on a dirty engine when the run is not dry, the directory can be created and every missing digest can be computed. A call that fails on a hash error or on the directory needs no file to exist.
- `debug` logging is not modelled. `unique` is only logged by the source; the model returns it as `written` so that its value can be stated.
- Callback asynchrony and `process.nextTick` are not modelled, so a clean engine's answer is immediate here.
- `path.extname` is a parameter. The separator is fixed to `'/'`.
- JavaScript object quirks are not modelled:
  - keys that look like array indices (for example `"42"`) are listed before other keys;
  - a short hash equal to an `Object.prototype` name would find an inherited value in `seen`. Hex digests cannot produce such a name.
- An empty path is not modelled (`Path` is a non-empty string). In the source an empty key would end the hashing pass early and then fail on `false.slice`.
- An empty digest is not modelled (`Digest` is a non-empty string). In the source an empty digest is falsy, so it would be hashed again.
- `minHashLen` is a `nat`. The case where it is `undefined` is not modelled.
- DirMap.NoFalseCollisions: with `ext` set it is proved only for digests of one length, because with digests of different lengths an extension could make up the difference.
- Hashonym.CleanMapHasNoFalseCollisions: with `ext` set it likewise assumes digests of one length, as any fixed-width hash gives; the source makes no such check.
- Materializer.Run: its own contract only bounds `unique`; the exact count (the distinct destinations that were missing) is stated by `Materializer.RunUnique`.
- Materializer.RunContents: states that a created file holds the bytes of some source mapped to it, not specifically the first such source in key order.

=== FILE: dirmap.dfy ===
/** The destination-map builder (`_generateDirMap` after hashing): every
    registered file goes to the output directory under its short hash, with
    its own extension appended when extensions are kept. `extName` stands for
    Node's `path.extname`. */
module DirMap {
  import opened Types
  import opened JsObject
  import opened HashPass
  import opened Resolver

  /** `outputDir + fullHash.slice(0, n)`, then `extname(file)` if `ext`. */
  function Destination(outputDir: string, digest: Digest, n: nat, ext: bool, extName: Path -> string, file: Path): (d: string)
    ensures ext ==> |d| == |outputDir| + |Slice(digest, n)| + |extName(file)|
    ensures !ext ==> |d| == |outputDir| + |Slice(digest, n)|
    ensures outputDir <= d
    ensures d[|outputDir|..|outputDir| + |Slice(digest, n)|] == Slice(digest, n)
    ensures ext ==> d[|d| - |extName(file)|..] == extName(file)
  {
    outputDir + Slice(digest, n) + (if ext then extName(file) else "")
  }

  /** The map built from the digest cache at prefix length `n`: the same keys
      in the same order, each with its destination. */
  function BuildDirMap(outputDir: string, c: Cache, n: nat, ext: bool, extName: Path -> string): (r: Obj<string>)
    requires Valid(c) && Computed(c)
    ensures Valid(r) && r.keys == c.keys
    ensures r.vals.Keys == c.vals.Keys
    ensures forall f :: f in r.vals ==> r.vals[f] == Destination(outputDir, c.vals[f].value, n, ext, extName, f)
  {
    Obj(c.keys, map f | f in c.vals :: Destination(outputDir, c.vals[f].value, n, ext, extName, f))
  }

  /** All digests have one length, as with any fixed-width hash. */
  ghost predicate SameLength(c: Cache)
    requires Computed(c)
  {
    forall f, g :: f in c.vals && g in c.vals ==> |c.vals[f].value| == |c.vals[g].value|
  }

  /** Equal prefixes after the same directory mean equal short hashes. */
  lemma StripPrefix(a: string, x: string, y: string, ex: string, ey: string)
    requires a + x + ex == a + y + ey
    requires |x| == |y|
    ensures x == y && ex == ey
  {
    assert x == (a + x + ex)[|a|..|a| + |x|];
    assert y == (a + y + ey)[|a|..|a| + |y|];
    assert ex == (a + x + ex)[|a| + |x|..];
    assert ey == (a + y + ey)[|a| + |y|..];
  }

  /** Files with the same content share a destination (extensions aside);
      at a valid length files with different content never do, nor, when
      extensions are kept, files with different extensions, provided the
      short hashes compared have one length (always so without extensions). */
  lemma NoFalseCollisions(outputDir: string, c: Cache, n: nat, ext: bool, extName: Path -> string)
    requires Valid(c) && Computed(c)
    requires ValidHashLen(DigestList(c), n)
    requires ext ==> SameLength(c)
    ensures var r := BuildDirMap(outputDir, c, n, ext, extName);
      forall f, g :: f in r.vals && g in r.vals ==>
        (r.vals[f] == r.vals[g] ==> c.vals[f] == c.vals[g])
        && (ext && r.vals[f] == r.vals[g] ==> extName(f) == extName(g))
        && (c.vals[f] == c.vals[g] && (!ext || extName(f) == extName(g)) ==> r.vals[f] == r.vals[g])
  {
    var r := BuildDirMap(outputDir, c, n, ext, extName);
    forall f, g | f in r.vals && g in r.vals && r.vals[f] == r.vals[g]
      ensures c.vals[f] == c.vals[g]
      ensures ext ==> extName(f) == extName(g)
    {
      SharedDestination(outputDir, c, n, ext, extName, f, g);
    }
  }

  /** Two registered files with one destination at a valid length have one
      digest, and, when extensions are kept, one extension. */
  lemma SharedDestination(outputDir: string, c: Cache, n: nat, ext: bool, extName: Path -> string, f: Path, g: Path)
    requires Valid(c) && Computed(c)
    requires ValidHashLen(DigestList(c), n)
    requires ext ==> SameLength(c)
    requires f in c.vals && g in c.vals
    requires Destination(outputDir, c.vals[f].value, n, ext, extName, f) == Destination(outputDir, c.vals[g].value, n, ext, extName, g)
    ensures c.vals[f] == c.vals[g]
    ensures ext ==> extName(f) == extName(g)
  {
    var df, dg := c.vals[f].value, c.vals[g].value;
    assert |Slice(df, n)| == |Slice(dg, n)| by {
      if ext {
        assert |df| == |dg|;
      }
    }
    StripPrefix(outputDir, Slice(df, n), Slice(dg, n),
      if ext then extName(f) else "", if ext then extName(g) else "");
    var hs := DigestList(c);
    var i :| 0 <= i < |c.keys| && c.keys[i] == f;
    var j :| 0 <= j < |c.keys| && c.keys[j] == g;
    assert hs[i] == df && hs[j] == dg;
  }
}

=== FILE: hashonym.dfy ===
/** The `Hashonym` engine: registered files with their cached digests, the
    destination map last built and the `dirty` flag that says whether that
    map is stale. Every transition is a function from the old state to the
    new one; the hashing capability (`hash`), `path.extname` (`extName`),
    the outcome of creating the output directory (`mkdirOk`) and the file
    store are its parameters. */
module Hashonym {
  import opened Types
  import opened Wrappers
  import opened JsObject
  import opened Resolver
  import opened HashPass
  import opened DirMap
  import opened Materializer

  datatype Engine = Engine(
    outputDir: string,
    minHashLen: nat,
    ext: bool,
    fullHashMap: Cache,
    dirHashMap: Obj<string>,
    dirty: bool)

  /** The map that the cached digests determine. */
  function CurrentDirMap(outputDir: string, minHashLen: nat, ext: bool, c: Cache, extName: Path -> string): Obj<string>
    requires Valid(c) && Computed(c)
  {
    BuildDirMap(outputDir, c, CalcMinHashLen(DigestList(c), minHashLen), ext, extName)
  }

  /** The engine invariant: the output directory ends in the separator, both
      objects are well formed, and a clean engine holds exactly the map its
      digests determine. */
  ghost predicate Wf(e: Engine, extName: Path -> string)
  {
    && |e.outputDir| > 0 && e.outputDir[|e.outputDir| - 1] == Sep
    && Valid(e.fullHashMap) && Valid(e.dirHashMap)
    && (!e.dirty ==> Computed(e.fullHashMap) && e.dirHashMap == CurrentDirMap(e.outputDir, e.minHashLen, e.ext, e.fullHashMap, extName))
  }

  /** The constructor. The source tests `outputDir.charAt(-1)`, which is
      always the empty string, so the separator is appended even when the
      directory already ends with one. */
  function New(outputDir: string, minHashLen: nat, ext: bool): (e: Engine)
    ensures e.dirty
    ensures e.fullHashMap.vals == map[] && e.dirHashMap.vals == map[]
    ensures e.outputDir == outputDir + [Sep]
    ensures e.minHashLen == minHashLen && e.ext == ext
    ensures forall extName :: Wf(e, extName)
  {
    Engine(outputDir + [Sep], minHashLen, ext, Empty(), Empty(), true)
  }

  /** The argument of `add`: one path or an array of paths. */
  datatype Files = One(file: Path) | Many(files: seq<Path>)

  /** `[].concat(files)`: a single path becomes a one-element list, an
      array is taken as it is. */
  function Concat(files: Files): seq<Path>
  {
    match files
    case One(f) => [f]
    case Many(fs) => fs
  }

  /** The paths of `fs` that are not among `keys`, each once, in the order
      they first occur: the keys that assigning to `fs` in turn appends. */
  function Fresh(keys: seq<Path>, fs: seq<Path>): seq<Path>
    decreases |fs|
  {
    if fs == [] then []
    else if fs[0] in keys then Fresh(keys, fs[1..])
    else [fs[0]] + Fresh(keys + [fs[0]], fs[1..])
  }

  /** Assigns `v` to every key of `fs` in turn. */
  function PutAll<V>(o: Obj<V>, fs: seq<Path>, v: V): (r: Obj<V>)
    requires Valid(o)
    ensures Valid(r)
    ensures forall f :: f in r.vals <==> f in o.vals || f in fs
    ensures forall f :: f in fs ==> r.vals[f] == v
    ensures forall f :: f in o.vals && f !in fs ==> r.vals[f] == o.vals[f]
    ensures r.keys == o.keys + Fresh(o.keys, fs)
    decreases |fs|
  {
    if fs == [] then o
    else
      var o' := Put(o, fs[0], v);
      var r := PutAll(o', fs[1..], v);
      assert forall f :: f in fs <==> f == fs[0] || f in fs[1..];
      PutKeepsFreshOrder(o, fs, v);
      r
  }

  /** Assigning the first path appends it exactly when it is fresh, so the
      keys still to come are the fresh ones of the rest. */
  lemma PutKeepsFreshOrder<V>(o: Obj<V>, fs: seq<Path>, v: V)
    requires Valid(o) && fs != []
    ensures Put(o, fs[0], v).keys + Fresh(Put(o, fs[0], v).keys, fs[1..]) == o.keys + Fresh(o.keys, fs)
  {
    if fs[0] in o.vals {
      FreshSkipsKnown(o.keys, fs);
    } else {
      FreshTakesNew(o.keys, fs);
    }
  }

  /** A path already among the keys is skipped. */
  lemma FreshSkipsKnown(keys: seq<Path>, fs: seq<Path>)
    requires fs != [] && fs[0] in keys
    ensures Fresh(keys, fs) == Fresh(keys, fs[1..])
  {
  }

  /** A new path is taken and joins the keys the rest is compared with. */
  lemma FreshTakesNew(keys: seq<Path>, fs: seq<Path>)
    requires fs != [] && fs[0] !in keys
    ensures keys + Fresh(keys, fs) == (keys + [fs[0]]) + Fresh(keys + [fs[0]], fs[1..])
  {
    var tail := Fresh(keys + [fs[0]], fs[1..]);
    assert Fresh(keys, fs) == [fs[0]] + tail;
    Regroup(keys, [fs[0]], tail);
  }

  /** Concatenation regrouped. */
  lemma Regroup(a: seq<Path>, b: seq<Path>, c: seq<Path>)
    ensures a + (b + c) == (a + b) + c
  {
  }

  /** `add`: marks the engine dirty and registers every given path with its
      digest reset to "not computed"; an already registered path keeps its
      place and is hashed again. Nothing else changes. */
  function Add(e: Engine, files: Files): (r: Engine)
    requires Valid(e.fullHashMap)
    ensures r.dirty
    ensures Valid(r.fullHashMap)
    ensures forall f :: f in r.fullHashMap.vals <==> f in e.fullHashMap.vals || f in Concat(files)
    ensures forall f :: f in Concat(files) ==> r.fullHashMap.vals[f] == None
    ensures forall f :: f in e.fullHashMap.vals && f !in Concat(files) ==> r.fullHashMap.vals[f] == e.fullHashMap.vals[f]
    ensures r.fullHashMap.keys == e.fullHashMap.keys + Fresh(e.fullHashMap.keys, Concat(files))
    ensures r.(fullHashMap := e.fullHashMap, dirty := e.dirty) == e
    ensures forall extName :: Wf(e, extName) ==> Wf(r, extName)
  {
    e.(dirty := true, fullHashMap := PutAll(e.fullHashMap, Concat(files), None))
  }

  /** `_generateDirMap`: a hashing pass, then, if it succeeded, the map at
      the resolved length is cached and `dirty` cleared. A failed pass keeps
      the digests it stored and leaves the engine dirty with its old map. */
  function GenerateDirMap(e: Engine, hash: Path -> Option<Digest>, extName: Path -> string): (r: (Engine, Pass))
    requires Wf(e, extName) && e.dirty
    ensures Wf(r.0, extName)
    ensures r.1.failed.None? <==> (forall f :: f in e.fullHashMap.vals && e.fullHashMap.vals[f].None? ==> hash(f).Some?)
    ensures r.1.failed.Some? ==> r.0.dirty && r.0.dirHashMap == e.dirHashMap
    ensures r.1.failed.None? ==> !r.0.dirty
    // only missing digests are computed, in key order, up to the first
    // error, and cached digests survive
    ensures HashedInOrder(e.fullHashMap, r.0.fullHashMap, r.1.hashed, r.1.failed, hash)
    ensures r.0.(fullHashMap := e.fullHashMap, dirHashMap := e.dirHashMap, dirty := e.dirty) == e
  {
    var (cache, pass) := GenerateHashMap(e.fullHashMap, hash);
    (AfterHashPass(e, cache, pass.failed.None?, extName), pass)
  }

  /** The second half of `_generateDirMap`: the engine takes the cache the
      pass left; if the pass succeeded, the map at the resolved length is
      cached and `dirty` cleared, otherwise the engine stays dirty with its
      old map. */
  function AfterHashPass(e: Engine, cache: Cache, ok: bool, extName: Path -> string): (r: Engine)
    requires Wf(e, extName) && e.dirty && Valid(cache)
    requires ok ==> Computed(cache)
    ensures Wf(r, extName)
    ensures r.fullHashMap == cache
    ensures r.dirty <==> !ok
    ensures !ok ==> r.dirHashMap == e.dirHashMap
    ensures ok ==> r.dirHashMap == CurrentDirMap(e.outputDir, e.minHashLen, e.ext, cache, extName)
    ensures r.(fullHashMap := e.fullHashMap, dirHashMap := e.dirHashMap, dirty := e.dirty) == e
  {
    if !ok then e.(fullHashMap := cache)
    else e.(fullHashMap := cache, dirHashMap := CurrentDirMap(e.outputDir, e.minHashLen, e.ext, cache, extName), dirty := false)
  }

  /** What one `hashonymize` call leaves behind: the engine, the store, the
      value handed to the callback, the files hashed and the copies made. */
  datatype Step = Step(engine: Engine, store: Store, result: Result<Obj<string>, Error>, hashed: seq<Path>, written: nat)

  /** The file a hashing error names, if the result is one. */
  function FailedFile(result: Result<Obj<string>, Error>): (f: Option<Path>)
    ensures f.Some? <==> result.Failure? && result.error.HashError?
    ensures f.Some? ==> result == Failure(HashError(f.value))
  {
    if result.Failure? && result.error.HashError? then Some(result.error.file) else None
  }

  /** What `hashonymize` reports, and leaves behind, when it starts from the
      dirty engine `e`: the engine side and the file side below. */
  ghost predicate Reported(e: Engine, dryRun: bool, hash: Path -> Option<Digest>, extName: Path -> string,
                           mkdirOk: bool, store: Store, s: Step)
  {
    HashReported(e, hash, extName, s) && Delivered(dryRun, mkdirOk, store, s)
  }

  /** The engine side of a call on the dirty engine `e`:
      - the engine keeps its output directory, `minHashLen` and `ext`;
      - only missing digests are computed, in key order, and cached digests
        survive; a hashing error names the file the pass stopped at;
      - there is a hashing error exactly when some missing digest cannot be
        computed, and it leaves the engine dirty with its old map;
      - otherwise the engine ends clean. */
  ghost predicate HashReported(e: Engine, hash: Path -> Option<Digest>, extName: Path -> string, s: Step)
  {
    && s.engine.outputDir == e.outputDir && s.engine.minHashLen == e.minHashLen && s.engine.ext == e.ext
    && Wf(s.engine, extName)
    && HashedInOrder(e.fullHashMap, s.engine.fullHashMap, s.hashed, FailedFile(s.result), hash)
    && (FailedFile(s.result).None? <==> (forall f :: f in e.fullHashMap.vals && e.fullHashMap.vals[f].None? ==> hash(f).Some?))
    && (FailedFile(s.result).Some? ==> s.engine.dirty && s.engine.dirHashMap == e.dirHashMap)
    && (FailedFile(s.result).None? ==> !s.engine.dirty)
  }

  /** The file side of a call that started from a dirty engine:
      - it succeeds exactly when there is no hashing error and the run is
        dry or the output directory can be created, and the only other
        failure is the directory's;
      - a success hands over the engine's map;
      - a dry run or a failure touches no file; a write keeps every
        existing file, creates every destination and nothing else, and
        counts the destinations that were missing; a file it creates holds
        the bytes of a file mapped to it. */
  ghost predicate Delivered(dryRun: bool, mkdirOk: bool, store: Store, s: Step)
  {
    && (s.result.Success? <==> FailedFile(s.result).None? && (dryRun || mkdirOk))
    && (s.result.Failure? && FailedFile(s.result).None? ==> s.result.error == MkdirError)
    && (s.result.Success? ==> s.result.value == s.engine.dirHashMap)
    && (dryRun || s.result.Failure? ==> s.store == store && s.written == 0)
    && (forall p :: p in store ==> p in s.store && s.store[p] == store[p])
    && (s.result.Success? && !dryRun ==> forall f :: f in s.result.value.vals ==> s.result.value.vals[f] in s.store)
    && (s.result.Success? && !dryRun ==>
          s.store.Keys == store.Keys + Destinations(s.result.value)
          && s.written == |Destinations(s.result.value) - store.Keys|)
    && (s.result.Success? && !dryRun ==>
          forall p :: p in s.store && p !in store ==>
            exists f :: f in s.result.value.vals && s.result.value.vals[f] == p && f in store && s.store[p] == store[f])
  }

  /** Whether a call on the dirty engine `e` reaches `_write`: it is not a
      dry run, the output directory can be created and every missing digest
      can be computed. Only then must the registered files exist. */
  ghost predicate Writes(e: Engine, dryRun: bool, hash: Path -> Option<Digest>, mkdirOk: bool)
  {
    !dryRun && mkdirOk && forall f :: f in e.fullHashMap.vals && e.fullHashMap.vals[f].None? ==> hash(f).Some?
  }

  /** `hashonymize` with the `dryRun` property as an argument. A clean engine
      answers from its cached map. A dirty one hashes what is missing (an
      error leaves it dirty), resolves the length, builds and caches the map
      and clears `dirty`, and then, unless it is a dry run, writes the files;
      `dirty` is cleared before writing, so a failed write leaves it clean. */
  function Hashonymize(e: Engine, dryRun: bool, hash: Path -> Option<Digest>, extName: Path -> string,
                       mkdirOk: bool, store: Store): (s: Step)
    requires Wf(e, extName)
    requires e.dirty && Writes(e, dryRun, hash, mkdirOk) ==> forall f :: f in e.fullHashMap.vals ==> f in store
    ensures Wf(s.engine, extName)
    // clean: the cached map, nothing hashed, nothing written
    ensures !e.dirty ==> s == Step(e, store, Success(e.dirHashMap), [], 0)
    ensures e.dirty ==> Reported(e, dryRun, hash, extName, mkdirOk, store, s)
  {
    if !e.dirty then Step(e, store, Success(e.dirHashMap), [], 0)
    else Regenerate(e, dryRun, hash, extName, mkdirOk, store)
  }

  /** `hashonymize` on a dirty engine: the map is regenerated, then the
      outcome is reported and, unless the run is dry, the files are written. */
  function Regenerate(e: Engine, dryRun: bool, hash: Path -> Option<Digest>, extName: Path -> string,
                      mkdirOk: bool, store: Store): (s: Step)
    requires Wf(e, extName) && e.dirty
    requires Writes(e, dryRun, hash, mkdirOk) ==> forall f :: f in e.fullHashMap.vals ==> f in store
    ensures Reported(e, dryRun, hash, extName, mkdirOk, store, s)
  {
    var (e', pass) := GenerateDirMap(e, hash, extName);
    MapCoversRegistered(e, e', pass, hash, extName);
    var s := Finish(e', pass, dryRun, mkdirOk, store);
    assert Pass(pass.vals, s.hashed, FailedFile(s.result)) == pass;
    EngineSide(e, s, pass.vals, hash, extName);
    s
  }

  /** What `_generateDirMap` guarantees about the engine `e'` and the pass
      it reports, starting from the dirty engine `e`. */
  ghost predicate Regenerated(e: Engine, e': Engine, pass: Pass, hash: Path -> Option<Digest>, extName: Path -> string)
  {
    && Wf(e, extName) && e.dirty
    && e'.outputDir == e.outputDir && e'.minHashLen == e.minHashLen && e'.ext == e.ext
    && Wf(e', extName)
    && (pass.failed.None? <==> (forall f :: f in e.fullHashMap.vals && e.fullHashMap.vals[f].None? ==> hash(f).Some?))
    && (pass.failed.Some? ==> e'.dirty && e'.dirHashMap == e.dirHashMap)
    && (pass.failed.None? ==> !e'.dirty)
    && HashedInOrder(e.fullHashMap, e'.fullHashMap, pass.hashed, pass.failed, hash)
  }

  /** After a successful pass the map has exactly the registered files as
      keys, so every file it names is registered. */
  lemma MapCoversRegistered(e: Engine, e': Engine, pass: Pass, hash: Path -> Option<Digest>, extName: Path -> string)
    requires Regenerated(e, e', pass, hash, extName)
    ensures pass.failed.None? ==> forall f :: f in e'.dirHashMap.vals ==> f in e.fullHashMap.vals
  {
    if pass.failed.None? {
      assert e'.fullHashMap.keys == e.fullHashMap.keys;
    }
  }

  /** The engine side of a report follows from `_generateDirMap`'s
      guarantees alone, whatever was written: `s` carries the engine and
      the pass, its result naming the file the pass failed on. */
  lemma EngineSide(e: Engine, s: Step, vals: map<Path, Option<Digest>>, hash: Path -> Option<Digest>, extName: Path -> string)
    requires Regenerated(e, s.engine, Pass(vals, s.hashed, FailedFile(s.result)), hash, extName)
    ensures HashReported(e, hash, extName, s)
  {
  }

  /** The end of `hashonymize` on a dirty engine, once the map has been
      regenerated: a hashing error is reported, a dry run answers with the
      map, otherwise the files are written and the map is the answer unless
      the output directory cannot be created. */
  function Finish(e: Engine, pass: Pass, dryRun: bool, mkdirOk: bool, store: Store): (s: Step)
    requires Valid(e.dirHashMap)
    requires pass.failed.None? && !dryRun && mkdirOk ==> forall f :: f in e.dirHashMap.vals ==> f in store
    ensures s.engine == e && s.hashed == pass.hashed && FailedFile(s.result) == pass.failed
    ensures Delivered(dryRun, mkdirOk, store, s)
  {
    if pass.failed.Some? then Step(e, store, Failure(HashError(pass.failed.value)), pass.hashed, 0)
    else if dryRun then Step(e, store, Success(e.dirHashMap), pass.hashed, 0)
    else
      match Write(e.dirHashMap, mkdirOk, store)
      case Failure(err) => Step(e, store, Failure(err), pass.hashed, 0)
      case Success(w) =>
        assert forall f :: f in e.dirHashMap.vals ==> e.dirHashMap.vals[f] in Destinations(e.dirHashMap);
        Step(e, w.store, Success(e.dirHashMap), pass.hashed, w.unique)
  }

  /** A dirty engine whose missing digests can all be computed, and that
      either runs dry or can create its output directory, succeeds; a second
      `hashonymize` with no `add` between returns the same map and neither
      hashes nor writes anything, whatever the second call's arguments. */
  lemma SecondCallIsCached(e: Engine, dryRun: bool, hash: Path -> Option<Digest>, extName: Path -> string,
                           mkdirOk: bool, store: Store,
                           dryRun': bool, hash': Path -> Option<Digest>, mkdirOk': bool, store': Store)
    requires Wf(e, extName) && e.dirty
    requires !dryRun ==> mkdirOk && forall f :: f in e.fullHashMap.vals ==> f in store
    requires forall f :: f in e.fullHashMap.vals && e.fullHashMap.vals[f].None? ==> hash(f).Some?
    ensures var s := Hashonymize(e, dryRun, hash, extName, mkdirOk, store);
      && s.result.Success?
      && Hashonymize(s.engine, dryRun', hash', extName, mkdirOk', store') == Step(s.engine, store', s.result, [], 0)
  {
    var s := Hashonymize(e, dryRun, hash, extName, mkdirOk, store);
    assert !s.engine.dirty && Wf(s.engine, extName);
  }

  /** The dirty flag is cleared before the files are written, so when the
      output directory cannot be created the next call reports success with
      the cached map and still writes nothing. */
  lemma FailedWriteIsNotRetried(e: Engine, hash: Path -> Option<Digest>, extName: Path -> string,
                                store: Store, dryRun': bool, hash': Path -> Option<Digest>, mkdirOk': bool)
    requires Wf(e, extName) && e.dirty
    requires forall f :: f in e.fullHashMap.vals && e.fullHashMap.vals[f].None? ==> hash(f).Some?
    ensures var s := Hashonymize(e, false, hash, extName, false, store);
      && s.result == Failure(MkdirError)
      && Hashonymize(s.engine, dryRun', hash', extName, mkdirOk', store)
           == Step(s.engine, store, Success(s.engine.dirHashMap), [], 0)
  {
  }

  /** The map a clean engine holds was built at the least valid length that
      is at least `minHashLen`. */
  lemma CleanMapUsesLeastLength(e: Engine, extName: Path -> string)
    requires Wf(e, extName) && !e.dirty
    ensures exists n: nat ::
      && n >= 1 && n >= e.minHashLen
      && ValidHashLen(DigestList(e.fullHashMap), n)
      && (forall m :: e.minHashLen <= m < n ==> !ValidHashLen(DigestList(e.fullHashMap), m))
      && e.dirHashMap == BuildDirMap(e.outputDir, e.fullHashMap, n, e.ext, extName)
  {
    var n := CalcMinHashLen(DigestList(e.fullHashMap), e.minHashLen);
    assert e.dirHashMap == BuildDirMap(e.outputDir, e.fullHashMap, n, e.ext, extName);
  }

  /** In the map a clean engine holds, two files share a destination exactly
      when they share content (and, when extensions are kept, an extension;
      there the digests are taken to have one length). */
  lemma CleanMapHasNoFalseCollisions(e: Engine, extName: Path -> string)
    requires Wf(e, extName) && !e.dirty
    requires e.ext ==> SameLength(e.fullHashMap)
    ensures forall f, g :: f in e.dirHashMap.vals && g in e.dirHashMap.vals ==>
      (e.dirHashMap.vals[f] == e.dirHashMap.vals[g] ==> e.fullHashMap.vals[f] == e.fullHashMap.vals[g])
      && (e.ext && e.dirHashMap.vals[f] == e.dirHashMap.vals[g] ==> extName(f) == extName(g))
      && (e.fullHashMap.vals[f] == e.fullHashMap.vals[g] && (!e.ext || extName(f) == extName(g)) ==>
            e.dirHashMap.vals[f] == e.dirHashMap.vals[g])
  {
    var n := CalcMinHashLen(DigestList(e.fullHashMap), e.minHashLen);
    NoFalseCollisions(e.outputDir, e.fullHashMap, n, e.ext, extName);
  }

  /** After `add` on a clean engine, the next call hashes only the paths just
      added: every other digest is reused. */
  lemma AddedPathsAreTheOnlyOnesHashed(e: Engine, files: Files, dryRun: bool, hash: Path -> Option<Digest>,
                                       extName: Path -> string, mkdirOk: bool, store: Store)
    requires Wf(e, extName) && !e.dirty
    requires !dryRun && mkdirOk ==> forall f :: f in e.fullHashMap.vals || f in Concat(files) ==> f in store
    ensures forall f :: f in Hashonymize(Add(e, files), dryRun, hash, extName, mkdirOk, store).hashed ==> f in Concat(files)
  {
    var e' := Add(e, files);
    var s := Hashonymize(e', dryRun, hash, extName, mkdirOk, store);
    forall f | f in s.hashed
      ensures f in Concat(files)
    {
      assert e'.fullHashMap.vals[f].None?;
    }
  }

  /** A registered file that cannot be hashed (one deleted since `add`,
      say) is reported as a hashing error, whatever the file system holds
      and even when the run is not dry: the engine stays dirty and no file
      is touched. */
  lemma UnhashableFileIsReported(e: Engine, hash: Path -> Option<Digest>, extName: Path -> string,
                                 mkdirOk: bool, store: Store)
    requires Wf(e, extName) && e.dirty
    requires exists f :: f in e.fullHashMap.vals && e.fullHashMap.vals[f].None? && hash(f).None?
    ensures var s := Hashonymize(e, false, hash, extName, mkdirOk, store);
      && FailedFile(s.result).Some?
      && s.engine.dirty && s.engine.dirHashMap == e.dirHashMap
      && s.store == store && s.written == 0
  {
  }
}

=== FILE: hashpass.dfy ===
/** The digest cache and the pass that fills it (`_generateHashMap`). A
    cached value of `None` stands for the `false` that `add` stores: the
    digest is not computed yet. The hashing capability is the oracle `hash`,
    where `None` is a hashing error. */
module HashPass {
  import opened Types
  import opened Wrappers
  import opened JsObject

  type Cache = Obj<Option<Digest>>

  /** Every registered file has a digest. */
  ghost predicate Computed(c: Cache)
  {
    forall f :: f in c.vals ==> c.vals[f].Some?
  }

  /** The full digests in key order, as the resolver sees them. */
  function DigestList(c: Cache): (hs: seq<Digest>)
    requires Valid(c) && Computed(c)
    ensures |hs| == |c.keys|
    ensures forall i :: 0 <= i < |hs| ==> Some(hs[i]) == c.vals[c.keys[i]]
  {
    seq(|c.keys|, i requires 0 <= i < |c.keys| => c.vals[c.keys[i]].value)
  }

  /** The outcome of one pass: the cache afterwards, the files handed to the
      hashing capability in order, and the file it failed on, if any. */
  datatype Pass = Pass(vals: map<Path, Option<Digest>>, hashed: seq<Path>, failed: Option<Path>)

  /** The files of `files` that have no digest yet, in order: the files a
      pass that meets no error hands to the hashing capability. */
  function Todo(files: seq<Path>, vals: map<Path, Option<Digest>>): seq<Path>
    requires forall f :: f in files ==> f in vals
  {
    if files == [] then []
    else
      assert forall g :: g in files[1..] ==> g in files;
      (if vals[files[0]].None? then [files[0]] else []) + Todo(files[1..], vals)
  }

  /** Storing a digest for a file outside `files` leaves its to-do list alone. */
  lemma {:induction false} TodoIgnoresOthers(files: seq<Path>, vals: map<Path, Option<Digest>>, g: Path, d: Option<Digest>)
    requires forall f :: f in files ==> f in vals
    requires g !in files
    ensures Todo(files, vals[g := d]) == Todo(files, vals)
  {
    if files != [] {
      assert forall f :: f in files[1..] ==> f in files;
      TodoIgnoresOthers(files[1..], vals, g, d);
    }
  }

  /** The `run` loop: takes the files in order, hashes those without a digest
      and stops at the first hashing error. */
  function Run(files: seq<Path>, vals: map<Path, Option<Digest>>, hash: Path -> Option<Digest>): (r: Pass)
    requires forall f :: f in files ==> f in vals
    ensures r.vals.Keys == vals.Keys
    // only files without a digest are handed to the hashing capability
    ensures forall f :: f in r.hashed ==> f in files && vals[f].None?
    // a file not hashed, or the one that failed, keeps its entry
    ensures forall f :: f in vals && (f !in r.hashed || r.failed == Some(f)) ==> r.vals[f] == vals[f]
    // every successful hash is stored, also when a later file fails
    ensures forall f :: f in r.hashed && r.failed != Some(f) ==> hash(f).Some? && r.vals[f] == hash(f)
    // the pass fails exactly when some file without a digest cannot be
    // hashed: the file it fails on is one, and on success there is none
    ensures r.failed.Some? ==> r.failed.value in r.hashed && hash(r.failed.value).None?
    ensures r.failed.None? ==> forall f :: f in files && vals[f].None? ==> hash(f).Some?
    ensures r.failed.None? ==> forall f :: f in files ==> r.vals[f].Some?
  {
    if files == [] then Pass(vals, [], None)
    else
      var f := files[0];
      assert forall g :: g in files[1..] ==> g in files;
      if vals[f].None? then
        match hash(f)
        case None => Pass(vals, [f], Some(f))
        case Some(d) =>
          var vals' := vals[f := Some(d)];
          var rest := Run(files[1..], vals', hash);
          assert forall g :: g in files ==> g == f || g in files[1..];
          Pass(rest.vals, [f] + rest.hashed, rest.failed)
      else
        assert forall g :: g in files ==> g == f || g in files[1..];
        Run(files[1..], vals, hash)
  }

  /** The tail of a list without repeats has no repeats and lacks the head. */
  lemma DistinctTail(files: seq<Path>)
    requires files != [] && Distinct(files)
    ensures Distinct(files[1..]) && files[0] !in files[1..]
  {
    assert forall k :: 0 <= k < |files[1..]| ==> files[1..][k] == files[k + 1];
  }

  /** The loop hashes the files without a digest in order and stops right
      after the first one that fails: what it hashes is a prefix of the
      to-do list, all of it on success, ending at the failing file
      otherwise. */
  lemma RunHashesInOrder(files: seq<Path>, vals: map<Path, Option<Digest>>, hash: Path -> Option<Digest>)
    requires forall f :: f in files ==> f in vals
    requires Distinct(files)
    ensures var r := Run(files, vals, hash);
      && r.hashed <= Todo(files, vals)
      && (r.failed.None? ==> r.hashed == Todo(files, vals))
      && (r.failed.Some? ==> |r.hashed| > 0 && r.hashed[|r.hashed| - 1] == r.failed.value)
  {
    RunFollowsTodo(files, vals, hash);
    RunEndsAtFailure(files, vals, hash);
  }

  /** What the loop hashes is a prefix of the to-do list, and all of it when
      no file fails. */
  lemma {:induction false} RunFollowsTodo(files: seq<Path>, vals: map<Path, Option<Digest>>, hash: Path -> Option<Digest>)
    requires forall f :: f in files ==> f in vals
    requires Distinct(files)
    ensures Run(files, vals, hash).hashed <= Todo(files, vals)
    ensures Run(files, vals, hash).failed.None? ==> Run(files, vals, hash).hashed == Todo(files, vals)
  {
    if files != [] {
      var f := files[0];
      assert forall g :: g in files[1..] ==> g in files;
      DistinctTail(files);
      if vals[f].None? {
        assert Todo(files, vals) == [f] + Todo(files[1..], vals);
        if hash(f).Some? {
          var rest := Run(files[1..], vals[f := hash(f)], hash);
          assert Run(files, vals, hash) == Pass(rest.vals, [f] + rest.hashed, rest.failed);
          TodoIgnoresOthers(files[1..], vals, f, hash(f));
          RunFollowsTodo(files[1..], vals[f := hash(f)], hash);
          PrefixCons(f, rest.hashed, Todo(files[1..], vals));
        }
      } else {
        assert Todo(files, vals) == Todo(files[1..], vals);
        RunFollowsTodo(files[1..], vals, hash);
      }
    }
  }

  /** When the loop fails, the failing file is the last one it hashed. */
  lemma {:induction false} RunEndsAtFailure(files: seq<Path>, vals: map<Path, Option<Digest>>, hash: Path -> Option<Digest>)
    requires forall f :: f in files ==> f in vals
    ensures Run(files, vals, hash).failed.Some? ==>
      EndsWith(Run(files, vals, hash).hashed, Run(files, vals, hash).failed.value)
  {
    if files != [] {
      var f := files[0];
      assert forall g :: g in files[1..] ==> g in files;
      if vals[f].None? {
        if hash(f).None? {
          assert Run(files, vals, hash) == Pass(vals, [f], Some(f));
        } else {
          var vals' := vals[f := hash(f)];
          assert forall g :: g in files[1..] ==> g in vals';
          var rest := Run(files[1..], vals', hash);
          assert Run(files, vals, hash) == Pass(rest.vals, [f] + rest.hashed, rest.failed);
          RunEndsAtFailure(files[1..], vals', hash);
          if rest.failed.Some? {
            LastOfCons(f, rest.hashed, rest.failed.value);
          }
        }
      } else {
        assert Run(files, vals, hash) == Run(files[1..], vals, hash);
        RunEndsAtFailure(files[1..], vals, hash);
      }
    }
  }

  /** `s` is non-empty and ends with `x`. */
  predicate EndsWith(s: seq<Path>, x: Path)
  {
    |s| > 0 && s[|s| - 1] == x
  }

  /** Putting an element in front of a sequence keeps its last element. */
  lemma LastOfCons(f: Path, s: seq<Path>, x: Path)
    requires EndsWith(s, x)
    ensures EndsWith([f] + s, x)
  {
  }

  /** Putting one element in front of two sequences keeps one a prefix of
      the other. */
  lemma PrefixCons(f: Path, s: seq<Path>, t: seq<Path>)
    requires s <= t
    ensures [f] + s <= [f] + t
  {
  }

  /** The to-do list of a list without repeats has no repeats. */
  lemma {:induction false} TodoDistinct(files: seq<Path>, vals: map<Path, Option<Digest>>)
    requires forall f :: f in files ==> f in vals
    requires Distinct(files)
    ensures Distinct(Todo(files, vals))
    ensures forall g :: g in Todo(files, vals) ==> g in files
  {
    if files != [] {
      assert forall g :: g in files[1..] ==> g in files;
      DistinctTail(files);
      TodoDistinct(files[1..], vals);
      var rest := Todo(files[1..], vals);
      assert files[0] !in rest;
      var t := (if vals[files[0]].None? then [files[0]] else []) + rest;
      assert forall k :: 0 <= k < |rest| ==> rest[k] in rest;
    }
  }

  /** In a prefix of a list without repeats that ends at the failing file,
      every earlier file differs from it. */
  lemma EarlierSucceeded(hashed: seq<Path>, todo: seq<Path>, failed: Option<Path>, hash: Path -> Option<Digest>)
    requires hashed <= todo && Distinct(todo)
    requires failed.Some? ==> |hashed| > 0 && hashed[|hashed| - 1] == failed.value
    requires forall f :: f in hashed && failed != Some(f) ==> hash(f).Some?
    ensures forall i :: 0 <= i < |hashed| - 1 ==> hash(hashed[i]).Some?
  {
    forall i | 0 <= i < |hashed| - 1
      ensures hash(hashed[i]).Some?
    {
      assert hashed[i] == todo[i] && hashed[|hashed| - 1] == todo[|hashed| - 1];
      assert hashed[i] in hashed;
    }
  }

  /** Every file hashed before the last one hashed successfully. */
  lemma StopsAtFirstError(files: seq<Path>, vals: map<Path, Option<Digest>>, hash: Path -> Option<Digest>)
    requires forall f :: f in files ==> f in vals
    requires Distinct(files)
    ensures var r := Run(files, vals, hash);
      forall i :: 0 <= i < |r.hashed| - 1 ==> hash(r.hashed[i]).Some?
  {
    RunHashesInOrder(files, vals, hash);
    TodoDistinct(files, vals);
    var r := Run(files, vals, hash);
    EarlierSucceeded(r.hashed, Todo(files, vals), r.failed, hash);
  }

  /** How a pass that tried the files `hashed` and stopped at `failed`, if
      any, took the cache from `before` to `after`: the key order is kept,
      only files without a digest were tried, in key order, up to the first
      one that could not be hashed; every other file tried now holds the
      capability's digest, and every file not tried (or failed), in
      particular every file with a cached digest, keeps its entry. */
  ghost predicate HashedInOrder(before: Cache, after: Cache, hashed: seq<Path>, failed: Option<Path>,
                                hash: Path -> Option<Digest>)
  {
    && Valid(before)
    && after.keys == before.keys
    && (forall f :: f in hashed ==> f in before.vals && before.vals[f].None?)
    && (forall f :: f in before.vals && before.vals[f].Some? ==> f in after.vals && after.vals[f] == before.vals[f])
    && hashed <= Todo(before.keys, before.vals)
    && (failed.None? ==> hashed == Todo(before.keys, before.vals))
    && (failed.Some? ==> |hashed| > 0 && hashed[|hashed| - 1] == failed.value && hash(failed.value).None?)
    && (forall i :: 0 <= i < |hashed| - 1 ==> hash(hashed[i]).Some?)
    && (forall f :: f in hashed && failed != Some(f) ==> hash(f).Some? && f in after.vals && after.vals[f] == hash(f))
    && (forall f :: f in before.vals && (f !in hashed || failed == Some(f)) ==>
          f in after.vals && after.vals[f] == before.vals[f])
  }

  /** `_generateHashMap`: one pass over the registered files in key order.
      The key order never changes; cached digests are reused; the files
      without a digest are hashed in key order up to the first error; every
      digest computed before an error is kept; on success every file has a
      digest. */
  function GenerateHashMap(c: Cache, hash: Path -> Option<Digest>): (r: (Cache, Pass))
    requires Valid(c)
    ensures Valid(r.0) && r.0.keys == c.keys && r.0.vals == r.1.vals
    ensures r.1.failed.None? ==> Computed(r.0)
    ensures r.1.failed.None? <==> (forall f :: f in c.vals && c.vals[f].None? ==> hash(f).Some?)
    ensures HashedInOrder(c, r.0, r.1.hashed, r.1.failed, hash)
  {
    RunHashesInOrder(c.keys, c.vals, hash);
    StopsAtFirstError(c.keys, c.vals, hash);
    var p := Run(c.keys, c.vals, hash);
    (Obj(c.keys, p.vals), p)
  }
}

=== FILE: jsobject.dfy ===
/** A plain JavaScript object used as a dictionary from paths to values.
    `Object.keys` lists the keys in insertion order; assigning to a key that
    is already present keeps its position, a new key goes last. */
module JsObject {
  import opened Types

  datatype Obj<V> = Obj(keys: seq<Path>, vals: map<Path, V>)

  predicate Distinct(s: seq<Path>)
  {
    forall i, j :: 0 <= i < j < |s| ==> s[i] != s[j]
  }

  /** `keys` lists every key of `vals` exactly once. */
  ghost predicate Valid<V>(o: Obj<V>)
  {
    && Distinct(o.keys)
    && (forall k :: k in o.vals <==> k in o.keys)
  }

  /** `{}` */
  function Empty<V>(): (o: Obj<V>)
    ensures Valid(o) && o.vals == map[]
  {
    Obj([], map[])
  }

  /** `o[k] = v`: the value changes, the key order only grows by `k` when
      `k` is new. */
  function Put<V>(o: Obj<V>, k: Path, v: V): (r: Obj<V>)
    requires Valid(o)
    ensures Valid(r)
    ensures r.vals == o.vals[k := v]
    ensures k in o.vals ==> r.keys == o.keys
    ensures k !in o.vals ==> r.keys == o.keys + [k]
  {
    if k in o.vals then Obj(o.keys, o.vals[k := v])
    else Obj(o.keys + [k], o.vals[k := v])
  }
}

=== FILE: materializer.dfy ===
/** The materializer (`_write`) over an abstract file store: a path exists
    when it is a key of the store, and copying sets the destination's bytes
    to the source's. Directory creation (`mkdirp`) is reduced to whether it
    succeeds. */
module Materializer {
  import opened Types
  import opened Wrappers
  import opened JsObject

  type Bytes = seq<bv8>
  type Store = map<string, Bytes>

  /** The store afterwards and `unique`, the number of copies made. */
  datatype Written = Written(store: Store, unique: nat)

  /** The destinations of `files[index..]`. */
  ghost function Pending(files: seq<Path>, dests: map<Path, string>, index: nat): set<string>
    requires forall f :: f in files ==> f in dests
  {
    set k | index <= k < |files| :: dests[files[k]]
  }

  /** Peeling off the first pending file. */
  lemma PendingStep(files: seq<Path>, dests: map<Path, string>, index: nat)
    requires index < |files|
    requires forall f :: f in files ==> f in dests
    ensures Pending(files, dests, index) == {dests[files[index]]} + Pending(files, dests, index + 1)
  {
  }

  /** The count of missing destinations after one step of the loop. */
  lemma MissingStep(pending: set<string>, rest: set<string>, dest: string, keys: set<string>)
    requires pending == {dest} + rest
    ensures dest in keys ==> pending - keys == rest - keys
    ensures dest !in keys ==> |pending - keys| == |rest - (keys + {dest})| + 1
  {
    if dest !in keys {
      assert pending - keys == (rest - (keys + {dest})) + {dest};
    }
  }

  /** The `run(index)` loop: a destination that exists is skipped, a missing
      one receives a copy of its source and counts as unique. */
  function Run(files: seq<Path>, dests: map<Path, string>, index: nat, store: Store, unique: nat): (r: Written)
    requires index <= |files|
    requires forall f :: f in files ==> f in dests && f in store
    // at most one copy per file visited, so `files.length - unique` files were found
    ensures unique <= r.unique <= unique + (|files| - index)
    // every copy creates a path, and no path disappears
    ensures store.Keys <= r.store.Keys
    ensures |r.store.Keys| == |store.Keys| + (r.unique - unique)
    decreases |files| - index
  {
    if index == |files| then Written(store, unique)
    else
      var src := files[index];
      var dest := dests[src];
      if dest in store then Run(files, dests, index + 1, store, unique)
      else
        var store' := store[dest := store[src]];
        assert store'.Keys == store.Keys + {dest};
        Run(files, dests, index + 1, store', unique + 1)
  }

  /** The loop never changes a path that exists and adds exactly the pending
      destinations. */
  lemma RunStore(files: seq<Path>, dests: map<Path, string>, index: nat, store: Store, unique: nat)
    requires index <= |files|
    requires forall f :: f in files ==> f in dests && f in store
    ensures var r := Run(files, dests, index, store, unique);
      && (forall p :: p in store ==> p in r.store && r.store[p] == store[p])
      && r.store.Keys == store.Keys + Pending(files, dests, index)
  {
    RunKeepsExisting(files, dests, index, store, unique);
    RunAddsPending(files, dests, index, store, unique);
  }

  /** The loop never changes a path that exists. */
  lemma {:induction false} RunKeepsExisting(files: seq<Path>, dests: map<Path, string>, index: nat, store: Store, unique: nat)
    requires index <= |files|
    requires forall f :: f in files ==> f in dests && f in store
    ensures var r := Run(files, dests, index, store, unique);
      forall p :: p in store ==> p in r.store && r.store[p] == store[p]
    decreases |files| - index
  {
    if index < |files| {
      var src := files[index];
      var dest := dests[src];
      if dest in store {
        assert Run(files, dests, index, store, unique) == Run(files, dests, index + 1, store, unique);
        RunKeepsExisting(files, dests, index + 1, store, unique);
      } else {
        var store' := store[dest := store[src]];
        assert Run(files, dests, index, store, unique) == Run(files, dests, index + 1, store', unique + 1);
        RunKeepsExisting(files, dests, index + 1, store', unique + 1);
      }
    }
  }

  /** The loop adds exactly the pending destinations. */
  lemma {:induction false} RunAddsPending(files: seq<Path>, dests: map<Path, string>, index: nat, store: Store, unique: nat)
    requires index <= |files|
    requires forall f :: f in files ==> f in dests && f in store
    ensures Run(files, dests, index, store, unique).store.Keys == store.Keys + Pending(files, dests, index)
    decreases |files| - index
  {
    if index == |files| {
      assert Pending(files, dests, index) == {};
    } else {
      var src := files[index];
      var dest := dests[src];
      PendingStep(files, dests, index);
      if dest in store {
        assert Run(files, dests, index, store, unique) == Run(files, dests, index + 1, store, unique);
        RunAddsPending(files, dests, index + 1, store, unique);
      } else {
        var store' := store[dest := store[src]];
        assert Run(files, dests, index, store, unique) == Run(files, dests, index + 1, store', unique + 1);
        assert store'.Keys == store.Keys + {dest};
        RunAddsPending(files, dests, index + 1, store', unique + 1);
      }
    }
  }

  /** The loop makes one copy per distinct destination that was missing. */
  lemma {:induction false} RunUnique(files: seq<Path>, dests: map<Path, string>, index: nat, store: Store, unique: nat)
    requires index <= |files|
    requires forall f :: f in files ==> f in dests && f in store
    ensures Run(files, dests, index, store, unique).unique == unique + |Pending(files, dests, index) - store.Keys|
    decreases |files| - index
  {
    if index == |files| {
      assert Pending(files, dests, index) == {};
    } else {
      var src := files[index];
      var dest := dests[src];
      var now, later := Pending(files, dests, index), Pending(files, dests, index + 1);
      PendingStep(files, dests, index);
      if dest in store {
        MissingStep(now, later, dest, store.Keys);
        RunUnique(files, dests, index + 1, store, unique);
      } else {
        var store' := store[dest := store[src]];
        assert store'.Keys == store.Keys + {dest};
        MissingStep(now, later, dest, store.Keys);
        RunUnique(files, dests, index + 1, store', unique + 1);
      }
    }
  }

  /** A file the loop creates holds the bytes of a source mapped to it. */
  lemma {:induction false} RunContents(files: seq<Path>, dests: map<Path, string>, index: nat, store: Store, unique: nat)
    requires index <= |files|
    requires forall f :: f in files ==> f in dests && f in store
    ensures var r := Run(files, dests, index, store, unique);
      forall p :: p in r.store && p !in store ==>
        exists k :: index <= k < |files| && dests[files[k]] == p && r.store[p] == store[files[k]]
    decreases |files| - index
  {
    if index < |files| {
      var src := files[index];
      var dest := dests[src];
      if dest in store {
        RunContents(files, dests, index + 1, store, unique);
      } else {
        var store' := store[dest := store[src]];
        RunContents(files, dests, index + 1, store', unique + 1);
        RunStore(files, dests, index + 1, store', unique + 1);
        var r := Run(files, dests, index, store, unique);
        forall p | p in r.store && p !in store
          ensures exists k :: index <= k < |files| && dests[files[k]] == p && r.store[p] == store[files[k]]
        {
          if p == dest {
            assert r.store[p] == store[files[index]];
          } else {
            var k :| index + 1 <= k < |files| && dests[files[k]] == p && r.store[p] == store'[files[k]];
            assert files[k] in store;
          }
        }
      }
    }
  }

  /** The destinations named by a map. */
  ghost function Destinations(dm: Obj<string>): set<string>
  {
    set f | f in dm.vals :: dm.vals[f]
  }

  /** Visiting every key visits every destination. */
  lemma PendingIsDestinations(dm: Obj<string>)
    requires Valid(dm)
    ensures Pending(dm.keys, dm.vals, 0) == Destinations(dm)
  {
    forall p | p in Destinations(dm)
      ensures p in Pending(dm.keys, dm.vals, 0)
    {
      var f :| f in dm.vals && dm.vals[f] == p;
      var k :| 0 <= k < |dm.keys| && dm.keys[k] == f;
    }
  }

  /** The loop's facts for a whole map, stated per key instead of per index. */
  lemma RunFromStart(dm: Obj<string>, store: Store)
    requires Valid(dm)
    requires forall f :: f in dm.vals ==> f in store
    ensures var r := Run(dm.keys, dm.vals, 0, store, 0);
      && (forall p :: p in store ==> p in r.store && r.store[p] == store[p])
      && r.store.Keys == store.Keys + Destinations(dm)
      && r.unique == |Destinations(dm) - store.Keys|
      && (forall p :: p in r.store && p !in store ==>
            exists f :: f in dm.vals && dm.vals[f] == p && r.store[p] == store[f])
  {
    PendingIsDestinations(dm);
    RunStore(dm.keys, dm.vals, 0, store, 0);
    RunUnique(dm.keys, dm.vals, 0, store, 0);
    CreatedFromSources(dm, store);
  }

  /** Every file a whole run creates holds the bytes of a file mapped to it. */
  lemma CreatedFromSources(dm: Obj<string>, store: Store)
    requires Valid(dm)
    requires forall f :: f in dm.vals ==> f in store
    ensures var r := Run(dm.keys, dm.vals, 0, store, 0);
      forall p :: p in r.store && p !in store ==>
        exists f :: f in dm.vals && dm.vals[f] == p && r.store[p] == store[f]
  {
    RunContents(dm.keys, dm.vals, 0, store, 0);
    var r := Run(dm.keys, dm.vals, 0, store, 0);
    forall p | p in r.store && p !in store
      ensures exists f :: f in dm.vals && dm.vals[f] == p && r.store[p] == store[f]
    {
      var k :| 0 <= k < |dm.keys| && dm.vals[dm.keys[k]] == p && r.store[p] == store[dm.keys[k]];
      assert dm.keys[k] in dm.vals;
    }
  }

  /** `_write`: fails when the output directory cannot be created; otherwise
      visits the files in key order, copying each to its destination unless
      that exists. Every source is an existing file. */
  function Write(dm: Obj<string>, mkdirOk: bool, store: Store): (r: Result<Written, Error>)
    requires Valid(dm)
    requires mkdirOk ==> forall f :: f in dm.vals ==> f in store
    ensures r.Failure? <==> !mkdirOk
    ensures r.Failure? ==> r.error == MkdirError
    ensures r.Success? ==> forall p :: p in store ==> p in r.value.store && r.value.store[p] == store[p]
    ensures r.Success? ==> r.value.store.Keys == store.Keys + Destinations(dm)
    ensures r.Success? ==> r.value.unique == |Destinations(dm) - store.Keys|
    ensures r.Success? ==> forall p :: p in r.value.store && p !in store ==>
      exists f :: f in dm.vals && dm.vals[f] == p && r.value.store[p] == store[f]
  {
    if !mkdirOk then Failure(MkdirError)
    else
      RunFromStart(dm, store);
      Success(Run(dm.keys, dm.vals, 0, store, 0))
  }

  /** A second run on the same map finds every destination and copies
      nothing. */
  lemma WriteTwiceCopiesNothing(dm: Obj<string>, store: Store)
    requires Valid(dm)
    requires forall f :: f in dm.vals ==> f in store
    ensures var w := Write(dm, true, store).value;
      Write(dm, true, w.store) == Success(Written(w.store, 0))
  {
    var w := Write(dm, true, store).value;
    var w' := Write(dm, true, w.store).value;
    assert Destinations(dm) - w.store.Keys == {};
    assert w'.store == w.store;
  }

  /** Two files with one destination that is missing: one copy, one skip. */
  lemma SharedDestinationCopiedOnce(a: Path, b: Path, dest: string, store: Store)
    requires a != b && a in store && b in store && dest !in store
    ensures var dm := Obj([a, b], map[a := dest, b := dest]);
      var w := Write(dm, true, store).value;
      && w.unique == 1
      && w.store.Keys == store.Keys + {dest}
      && (w.store[dest] == store[a] || w.store[dest] == store[b])
  {
    var dm := Obj([a, b], map[a := dest, b := dest]);
    assert dm.vals[a] == dest;
    assert Destinations(dm) == {dest};
  }
}

=== FILE: resolver.dfy ===
/** The hash-length resolver: the shortest digest prefix length at which no
    two files with different content share a prefix, raised to the
    configured floor. `hs` lists the full digests of the registered files in
    key order. */
module Resolver {

  /** `s.slice(0, n)` for a non-negative `n`: the first `n` characters, or
      all of `s` when it is shorter. */
  function Slice(s: string, n: nat): (p: string)
    ensures p <= s
    ensures |p| == if n <= |s| then n else |s|
  {
    if n <= |s| then s[..n] else s
  }

  /** Cutting twice keeps the shorter cut. */
  lemma SliceOfSlice(s: string, m: nat, n: nat)
    requires m <= n
    ensures Slice(Slice(s, n), m) == Slice(s, m)
  {
  }

  /** No two digests that differ agree on their first `n` characters. */
  ghost predicate CollisionFree(hs: seq<string>, n: nat)
  {
    forall i, j :: 0 <= i < |hs| && 0 <= j < |hs| && Slice(hs[i], n) == Slice(hs[j], n) ==> hs[i] == hs[j]
  }

  /** The pairwise definition of a usable hash length. */
  ghost predicate ValidHashLen(hs: seq<string>, n: int)
  {
    n > 0 && CollisionFree(hs, n)
  }

  /** What the scan has established after looking at `hs[..i]`: `seen` maps
      each short hash met so far to the first index that produced it, and
      every digest met so far equals its group's first digest. */
  ghost predicate GroupsAgree(hs: seq<string>, n: nat, i: nat, seen: map<string, nat>)
    requires i <= |hs|
  {
    && (forall p :: p in seen ==> seen[p] < i && Slice(hs[seen[p]], n) == p)
    && (forall k :: 0 <= k < i ==> Slice(hs[k], n) in seen && hs[k] == hs[seen[Slice(hs[k], n)]])
  }

  /** The grouping loop of the validity check from index `i` on: a digest
      whose short hash was seen before must equal the digest of the group's
      first file, otherwise the length is rejected. */
  function Scan(hs: seq<string>, n: nat, i: nat, seen: map<string, nat>): (r: bool)
    requires i <= |hs|
    requires forall p :: p in seen ==> seen[p] < i && Slice(hs[seen[p]], n) == p
    // a rejection always exhibits two different digests with one short hash
    ensures !r ==> !CollisionFree(hs, n)
    decreases |hs| - i
  {
    if i == |hs| then true
    else
      var p := Slice(hs[i], n);
      if p in seen && hs[i] != hs[seen[p]] then
        assert Slice(hs[i], n) == Slice(hs[seen[p]], n);
        false
      else Scan(hs, n, i + 1, if p in seen then seen else seen[p := i])
  }

  /** Comparing against one representative per group decides the pairwise
      definition. */
  lemma {:induction false} ScanDecidesCollisionFree(hs: seq<string>, n: nat, i: nat, seen: map<string, nat>)
    requires i <= |hs|
    requires GroupsAgree(hs, n, i, seen)
    ensures Scan(hs, n, i, seen) <==> CollisionFree(hs, n)
    decreases |hs| - i
  {
    if i == |hs| {
      forall a, b | 0 <= a < |hs| && 0 <= b < |hs| && Slice(hs[a], n) == Slice(hs[b], n)
        ensures hs[a] == hs[b]
      {
        assert hs[a] == hs[seen[Slice(hs[a], n)]];
        assert hs[b] == hs[seen[Slice(hs[b], n)]];
      }
    } else {
      var p := Slice(hs[i], n);
      if p in seen && hs[i] != hs[seen[p]] {
        var r := seen[p];
        assert Slice(hs[r], n) == Slice(hs[i], n);
        assert !CollisionFree(hs, n);
      } else {
        var seen' := if p in seen then seen else seen[p := i];
        assert GroupsAgree(hs, n, i + 1, seen') by {
          forall k | 0 <= k < i + 1
            ensures Slice(hs[k], n) in seen' && hs[k] == hs[seen'[Slice(hs[k], n)]]
          {
            if k < i {
              assert Slice(hs[k], n) in seen;
            }
          }
        }
        ScanDecidesCollisionFree(hs, n, i + 1, seen');
      }
    }
  }

  /** `_isValidHashLen`: non-positive lengths are rejected outright, any other
      length is accepted exactly when it separates every pair of different
      digests. */
  function IsValidHashLen(hs: seq<string>, n: int): (r: bool)
    ensures r <==> ValidHashLen(hs, n)
  {
    if n <= 0 then false
    else
      ScanDecidesCollisionFree(hs, n, 0, map[]);
      Scan(hs, n, 0, map[])
  }

  /** Validity is upward-closed: a longer prefix separates whatever a shorter
      one separates. */
  lemma ValidHashLenUpward(hs: seq<string>, m: int, n: int)
    requires ValidHashLen(hs, m)
    requires m <= n
    ensures ValidHashLen(hs, n)
  {
    forall i, j | 0 <= i < |hs| && 0 <= j < |hs| && Slice(hs[i], n) == Slice(hs[j], n)
      ensures hs[i] == hs[j]
    {
      SliceOfSlice(hs[i], m, n);
      SliceOfSlice(hs[j], m, n);
    }
  }

  /** The length of the longest digest. */
  function MaxLen(hs: seq<string>): (m: nat)
    ensures forall i :: 0 <= i < |hs| ==> |hs[i]| <= m
    ensures |hs| > 0 ==> exists i :: 0 <= i < |hs| && |hs[i]| == m
  {
    if |hs| == 0 then 0
    else
      var rest := MaxLen(hs[1..]);
      assert forall i :: 1 <= i < |hs| ==> hs[i] == hs[1..][i - 1];
      if |hs[0]| >= rest then |hs[0]| else rest
  }

  /** The search never needs to go past this length. */
  function Bound(hs: seq<string>): (b: nat)
    ensures b >= 1
  {
    if MaxLen(hs) < 1 then 1 else MaxLen(hs)
  }

  /** At the bound every prefix is the whole digest, so equal prefixes mean
      equal digests. */
  lemma BoundIsValid(hs: seq<string>)
    ensures ValidHashLen(hs, Bound(hs))
  {
    var b := Bound(hs);
    forall i | 0 <= i < |hs|
      ensures Slice(hs[i], b) == hs[i]
    {
    }
  }

  /** The `while` loop of `_findMinHashLen` from candidate `n` on. */
  function FindFrom(hs: seq<string>, n: nat): (r: nat)
    requires 1 <= n <= Bound(hs)
    requires forall m :: 1 <= m < n ==> !ValidHashLen(hs, m)
    ensures n <= r <= Bound(hs)
    ensures ValidHashLen(hs, r)
    ensures forall m :: 1 <= m < r ==> !ValidHashLen(hs, m)
    decreases Bound(hs) - n
  {
    if IsValidHashLen(hs, n) then n
    else
      BoundIsValid(hs);
      FindFrom(hs, n + 1)
  }

  /** `_findMinHashLen`: the least valid length, searched from 1; it is never
      more than the longest digest (or 1 when there are no digests). */
  function FindMinHashLen(hs: seq<string>): (r: nat)
    ensures 1 <= r <= Bound(hs)
    ensures ValidHashLen(hs, r)
    ensures forall m :: 1 <= m < r ==> !ValidHashLen(hs, m)
  {
    FindFrom(hs, 1)
  }

  /** `_calcMinHashLen`: the least length found, raised to `minHashLen`. Since
      validity is upward-closed the result is the least valid length that is
      at least `minHashLen`. */
  function CalcMinHashLen(hs: seq<string>, minHashLen: nat): (r: nat)
    ensures r >= 1 && r >= minHashLen
    ensures ValidHashLen(hs, r)
    ensures forall m :: minHashLen <= m < r ==> !ValidHashLen(hs, m)
  {
    var minLen := FindMinHashLen(hs);
    if minLen < minHashLen then
      ValidHashLenUpward(hs, minLen, minHashLen);
      minHashLen
    else minLen
  }

  /** Two different digests that agree on their first `n` characters force a
      length above `n`, whatever the floor. */
  lemma SharedPrefixForcesLongerHash(hs: seq<string>, minHashLen: nat, i: int, j: int, n: nat)
    requires 0 <= i < |hs| && 0 <= j < |hs|
    requires hs[i] != hs[j] && Slice(hs[i], n) == Slice(hs[j], n)
    ensures CalcMinHashLen(hs, minHashLen) > n
  {
    var r := CalcMinHashLen(hs, minHashLen);
    if r <= n {
      SliceOfSlice(hs[i], r, n);
      SliceOfSlice(hs[j], r, n);
    }
  }

  /** Once some length at or below the floor is valid, the floor itself is
      the resolved length. */
  lemma FloorWins(hs: seq<string>, n: int, minHashLen: nat)
    requires ValidHashLen(hs, n) && n <= minHashLen
    ensures CalcMinHashLen(hs, minHashLen) == minHashLen
  {
    ValidHashLenUpward(hs, n, minHashLen);
  }

  /** When any two different digests already differ in their first
      character, one character suffices, so the floor (at least 1) is used. */
  lemma DistinctFirstCharacters(hs: seq<string>, minHashLen: nat)
    requires forall i, j :: 0 <= i < |hs| && 0 <= j < |hs| && hs[i] != hs[j] ==>
      |hs[i]| > 0 && |hs[j]| > 0 && hs[i][0] != hs[j][0]
    ensures CalcMinHashLen(hs, minHashLen) == if minHashLen <= 1 then 1 else minHashLen
  {
    assert ValidHashLen(hs, 1);
    FloorWins(hs, 1, if minHashLen <= 1 then 1 else minHashLen);
    if minHashLen == 0 {
      assert CalcMinHashLen(hs, 1) == 1;
      assert !ValidHashLen(hs, 0);
    }
  }

  /** When every file has the same content, no length can collide, so the
      floor (at least 1) is used. */
  lemma IdenticalContent(hs: seq<string>, minHashLen: nat)
    requires forall i, j :: 0 <= i < |hs| && 0 <= j < |hs| ==> hs[i] == hs[j]
    ensures CalcMinHashLen(hs, minHashLen) == if minHashLen <= 1 then 1 else minHashLen
  {
    assert ValidHashLen(hs, 1);
    FloorWins(hs, 1, if minHashLen <= 1 then 1 else minHashLen);
    if minHashLen == 0 {
      assert !ValidHashLen(hs, 0);
    }
  }
}

=== FILE: types.dfy ===
/** Names shared by every part of the model: paths, digests, the path
    separator and the errors an engine run can report. */
module Types {

  /** A registered file path. The engine's registry is a JavaScript object
      keyed by path, and an empty key would end the hashing pass early, so
      paths are non-empty strings. */
  type Path = s: string | |s| > 0 witness "f"

  /** A full content digest as produced by the hashing capability. */
  type Digest = s: string | |s| > 0 witness "0"

  /** The platform path separator (`path.sep`), fixed to the POSIX one. */
  const Sep: char := '/'

  /** Errors that reach the caller of `hashonymize`. */
  datatype Error =
    | HashError(file: Path)  // the hashing capability failed on `file`
    | MkdirError             // the output directory could not be created
}

=== FILE: wrappers.dfy ===
/** The usual failure-carrying wrappers. */
module Wrappers {

  datatype Option<+T> = None | Some(value: T)

  datatype Result<+R, +E> = Success(value: R) | Failure(error: E)
}
